=== FILE: README.md ===
# Open Buildings CSV to polygon feature class: the load loop

This project models the sequential core of `script.py`, a script that reads
a large CSV of building footprints and writes a polygon feature class. Each
CSV row holds a WKT polygon and a `confidence` score. The core has two parts:

* **Column resolution** (`Columns`). The header row is read. The positions of
  the WKT column (`wkt_column_name`, default `geometry`) and of the literal
  `confidence` column are looked up with `list.index`. Both lookups give the
  first occurrence. A missing column aborts the run before any data row is read.
* **The load loop** (`LoadLoop`). Each data row runs four steps in a fixed
  order: fetch the WKT field, fetch the confidence field and parse it as a
  float, convert the WKT to a geometry, and insert the pair through the cursor.
  Any exception in these steps skips the row and prints
  `Skipping row {row_count + 1} ...`; the loop then goes on to the next row.
  After a successful insert the counter is incremented. A
  `Processed {n} features...` line is printed whenever the new count is a
  multiple of 10000.

`Script.ConvertCsv` joins the two parts: header, then resolution, then the
loop over the remaining lines.

The geometry engine and the float parser are not modelled. They come in as a
`Collaborators` value with three functions: `parseFloat` (Python's `float`),
`fromWkt` (`arcpy.FromWKT` under the fixed spatial reference) and `accepts`
(whether `cursor.insertRow` succeeds, given the records the cursor already
holds). Rows arrive already split into fields (`seq<seq<string>>`). The
loop's console output is a log of `Progress` and `Skip` events.

`LoadLoop.LoadRows` is the imperative loop. It is proved equal to the fold
`RunOf`. The properties are proved about `RunOf` in `LoadFacts`. Most of them
are stated against `Outcomes`, a non-recursive definition in which row `i`'s
outcome is its four steps run against the records that rows `0..i-1` left in
the cursor.

Behaviour of the code a reader might not expect:

* The skip diagnostic reports `row_count + 1`: the number of rows loaded so far
  plus one. It is not the row's position in the file
  (`LoadFacts.SkipNumberIsNotRowPosition`).
* Rows are not checked against the header's width. The row's width matters only
  when the row is too short for one of the two resolved positions
  (`LoadFacts.OnlyResolvedFieldsMatter`).
* Both columns are looked up, and the WKT column comes first. When both are
  missing, the error names the WKT column.
* A file with no lines fails at `next(reader)`. The outer handler catches the
  `StopIteration`, so the run aborts; this is `EmptyInput`.

## Model

| member | source | states |
|---|---|---|
| Columns.IndexOf | script.py:56-57 | `list.index`: a result exists iff the name is in the header, and it is the first position holding that name |
| Columns.Resolve | script.py:54-60 | succeeds iff both the WKT name and `confidence` occur in the header; each index is the first occurrence of its name; otherwise the error names the WKT column if that one is missing, else `confidence` |
| Columns.DefaultHeaderResolves | script.py:17 | the header `geometry,confidence` with the default WKT column name resolves to positions 0 and 1 |
| Columns.MissingConfidenceIsFatal | script.py:57-60 | a header that has the WKT column but no `confidence` is rejected naming `confidence` |
| LoadLoop.Convert | script.py:66-70 | the field fetches and the two parses in source order, the first failure being the result; a record comes out iff both positions are inside the row and both the float and the WKT parse succeed, and no conversion fails with `InsertRejected` |
| LoadLoop.Attempt | script.py:66-73 | a row fails with cause `f` only if step `f` (WKT field, confidence field, float parse, WKT parse, insert, in that order) fails and no earlier step fails; a row is loaded iff no step fails, and the record loaded is the WKT field's geometry paired with the confidence field's parsed value |
| LoadLoop.Step | script.py:65-81 | one loop iteration: the counter and the sink's length grow together, by at most one, and a row that appends nothing adds exactly one line to the log |
| LoadFacts.StepKeepsOld | script.py:65-81 | one loop iteration keeps the records already stored; a loaded row appends the record its steps produced, and a skipped row leaves the records alone and prints `Skip(row_count + 1, cause)` with the failing step as cause |
| LoadLoop.RunOf | script.py:63-81 | the loop's state after all rows from a zero counter: one stored record per success, and no more successes or log lines than rows |
| LoadLoop.LoadRows | script.py:63-81 | the loop's final counter, inserted records and printed lines are exactly those of the fold `RunOf` over all rows, starting from a zero counter |
| LoadFacts.FirstFailingStep | script.py:66-73 | both directions: a row is skipped with cause `f` iff step `f` fails and every earlier step succeeds |
| LoadFacts.OnlyResolvedFieldsMatter | script.py:66-67 | conversion reads only the two resolved fields; rows agreeing on them convert alike, whatever their width |
| LoadFacts.Outcomes | script.py:64-81 | one outcome per row, in input order: every row is attempted exactly once |
| LoadFacts.Positions | script.py:64-81 | every listed position of successful (or failed) outcomes is in range and has that kind of outcome |
| LoadFacts.PositionsIncreasing | script.py:64-75 | the listed positions are strictly increasing, so loaded and skipped rows keep the input order |
| LoadFacts.PositionsComplete | script.py:64-81 | every position whose outcome has the requested kind is listed |
| LoadFacts.PositionsPartition | script.py:64-81 | successes and failures together number exactly the rows |
| LoadFacts.SinkIsOrderedFilter | script.py:64-75 | the counter equals the number of records inserted and the number of successful rows; the k-th inserted record is the record of the k-th successful row, in input order |
| LoadFacts.CountIsSuccesses | script.py:63-75 | the final counter is the number of rows whose four steps all succeeded |
| LoadFacts.SkipsFollowOutcomes | script.py:80-81 | the log's skip lines are one per failed outcome, each reporting the successes before it plus one |
| LoadFacts.SkipLinesAt | script.py:80-81 | the k-th of those skip lines belongs to the k-th failed row and carries its cause |
| LoadFacts.SkipDiagnostics | script.py:80-81 | one skip line per failed row, in input order; the k-th reports (rows loaded before that row) + 1 and the cause of the k-th failure |
| LoadFacts.EveryRowAccountedFor | script.py:64-81 | loaded rows plus skip lines equal the number of rows: no failure in the four per-row steps ends the loop |
| LoadFacts.ProgressFollowsCounter | script.py:75-78 | the log's progress lines are those called for by the counter's successive values: one for each positive multiple of 10000 reached |
| LoadFacts.ProgressLinesAt | script.py:77-78 | counting up to `c` calls for floor(c / 10000) progress lines, the j-th reporting (j + 1) * 10000 |
| LoadFacts.ProgressCadence | script.py:75-78 | the progress lines are exactly 10000, 20000, ..., in order, up to the final count: floor(count / 10000) of them |
| LoadFacts.OutcomesUnderAcceptingCursor | script.py:73 | when the cursor accepts every record, a row's outcome is its conversion alone |
| LoadFacts.OneBadRowOutcomes | script.py:64-81 | with an accepting cursor and one row that does not convert, exactly that row's outcome fails, with its conversion's cause |
| LoadFacts.OneBadRowIsolated | script.py:64-81 | with an accepting cursor and exactly one row that does not convert, all other rows are loaded and a single skip line is printed; it reports that row's 1-based position |
| LoadFacts.AllRowsLoaded | script.py:64-81 | with an accepting cursor and rows that all convert, every row is loaded and no skip line is printed |
| LoadFacts.TwentyFiveThousandRows | script.py:75-78 | 25000 good rows give a count of 25000 and progress lines at 10000 and 20000 only |
| LoadFacts.SkipNumberIsNotRowPosition | script.py:81 | two short rows both print `Skipping row 1`, so the number is not the row's position in the file |
| Script.ConvertCsv | script.py:53-64 | an empty file or a missing column aborts with zero rows read, zero records and no loop lines; otherwise every data row goes through the loop with the resolved positions |

## Left out

- The `arcpy` calls: `SpatialReference`, `CreateFeatureclass`, `AddField`, `da.InsertCursor` and `AddError` (script.py:27-48, 88). They belong to a library whose code is not available. `FromWKT` and `insertRow` appear only as the `fromWkt` and `accepts` collaborators. Schema creation and its failure on an existing feature class are not modelled.
- Opening the file with its encoding, and CSV tokenisation by `csv.reader` (script.py:49-50). Lines arrive already split into fields, and a missing or unreadable file is not modelled.
- The reader is assumed to yield every row. In the script the next row is fetched by `for row in reader` (script.py:64), outside the per-row `try`; a `csv.Error` (such as a field over `csv.field_size_limit`) or a `UnicodeDecodeError` raised there ends the loop and reaches the outer handler (script.py:86-88), after earlier records were already inserted. The model has no such path.
- `float()` (script.py:67) works on floating point. It is an abstract parse that either fails or yields an opaque value.
- The exception message in the skip line (`{e}`) is reduced to the step that failed (`Failure`).
- `accepts`: the insert verdict is a function of the stored records and the new record. A sink failing for reasons outside these, such as time or disk state, is not distinguished.
- The scoped release of the file and the cursor (`with` blocks), and any commit or rollback by the cursor.
- Configuration constants other than the WKT column name (script.py:8-14), the banners (script.py:24, 31, 39, 62, 83-84), the missing-column message (script.py:59) and the outer handler's printing (script.py:86-88). A fatal error is returned as `fatal` instead.
- Script.ConvertCsv: `rowsRead` is an observation of the model: how many data rows the reader hands to the loop. The script has no such variable.

=== FILE: columns.dfy ===
/**
 * Header column resolution: the positions of the WKT column and of the
 * `confidence` column are looked up once in the header row, before any
 * data row is read.
 */
module Columns {
  import opened Wrappers

  /** Name of the attribute column; it is not configurable. */
  const ConfidenceColumn: string := "confidence"

  /** Default name of the column holding the polygon WKT. */
  const DefaultWktColumn: string := "geometry"

  /** Positions of the two required columns in the header. */
  datatype ColumnIndex = ColumnIndex(wkt: nat, conf: nat)

  /** Errors that abort the whole run before the row loop starts. */
  datatype Fatal =
    | EmptyInput                 // the file has no header line
    | ColumnMissing(name: string) // a required column is not in the header

  /** `i` is the first position of `name` in `header`. */
  predicate IsFirst(header: seq<string>, i: nat, name: string)
  {
    i < |header| && header[i] == name &&
    forall j :: 0 <= j < i ==> header[j] != name
  }

  /**
   * Python's `list.index`: the position of the first occurrence of `name`,
   * or `None` where the list method raises `ValueError`.
   */
  function IndexOf(header: seq<string>, name: string): (r: Option<nat>)
    ensures r.Some? <==> name in header
    ensures r.Some? ==> IsFirst(header, r.value, name)
  {
    if header == [] then None
    else if header[0] == name then Some(0)
    else
      match IndexOf(header[1..], name)
      case None => None
      case Some(i) => Some(i + 1)
  }

  /**
   * Resolves the WKT column (looked up first) and then the `confidence`
   * column; the first missing name is the one reported.
   */
  function Resolve(header: seq<string>, wktName: string): (r: Result<ColumnIndex, Fatal>)
    ensures r.Ok? <==> wktName in header && ConfidenceColumn in header
    ensures r.Ok? ==> IsFirst(header, r.value.wkt, wktName)
    ensures r.Ok? ==> IsFirst(header, r.value.conf, ConfidenceColumn)
    ensures r.Err? ==>
      r.error == ColumnMissing(if wktName !in header then wktName else ConfidenceColumn)
  {
    match IndexOf(header, wktName)
    case None => Err(ColumnMissing(wktName))
    case Some(w) =>
      match IndexOf(header, ConfidenceColumn)
      case None => Err(ColumnMissing(ConfidenceColumn))
      case Some(c) => Ok(ColumnIndex(w, c))
  }

  /** A header naming both columns, in the default layout, resolves to positions 0 and 1. */
  lemma DefaultHeaderResolves()
    ensures Resolve([DefaultWktColumn, ConfidenceColumn], DefaultWktColumn) == Ok(ColumnIndex(0, 1))
  {
  }

  /** A header without `confidence` is rejected naming that column. */
  lemma MissingConfidenceIsFatal(header: seq<string>, wktName: string)
    requires wktName in header && ConfidenceColumn !in header
    ensures Resolve(header, wktName) == Err(ColumnMissing(ConfidenceColumn))
  {
  }
}

=== FILE: load_facts.dfy ===
/**
 * What the load loop promises, stated against independent descriptions:
 * the step at which a row fails, the outcome of every row, the positions of
 * the rows that were loaded or skipped.
 */
module LoadFacts {
  import opened Wrappers
  import opened Columns
  import opened LoadLoop

  // ---------------------------------------------------------------------------
  // One row: the steps in their fixed order
  // ---------------------------------------------------------------------------

  /** A row is skipped with cause `f` exactly when step `f` fails and no earlier step does. */
  lemma FirstFailingStep<G, V>(row: seq<string>, cols: ColumnIndex, env: Collaborators<G, V>,
                               stored: seq<Record<G, V>>, f: Failure)
    ensures Attempt(row, cols, env, stored) == Err(f) <==>
      Fails(f, row, cols, env, stored) &&
      forall g :: Rank(g) < Rank(f) ==> !Fails(g, row, cols, env, stored)
  {
  }

  /**
   * One row's effect on the loop's state: the records already stored stay as
   * they were; a loaded row appends its record, and a skipped row appends
   * nothing and prints one skip line carrying the counter plus one and the
   * failing step.
   */
  lemma StepKeepsOld<G, V>(s: State<G, V>, row: seq<string>, cols: ColumnIndex,
                           env: Collaborators<G, V>)
    ensures Step(s, row, cols, env).sink[..|s.sink|] == s.sink
    ensures Step(s, row, cols, env).count == s.count ==>
      Step(s, row, cols, env).sink == s.sink &&
      Step(s, row, cols, env).log ==
        s.log + [Skip(s.count + 1, Attempt(row, cols, env, s.sink).error)]
    ensures Step(s, row, cols, env).count == s.count + 1 ==>
      Step(s, row, cols, env).sink == s.sink + [Attempt(row, cols, env, s.sink).value]
  {
  }

  /**
   * Only the two resolved fields are read: the row's width is not checked
   * against the header, so rows that agree on those two fields convert alike.
   */
  lemma OnlyResolvedFieldsMatter<G, V>(row1: seq<string>, row2: seq<string>, cols: ColumnIndex,
                                       env: Collaborators<G, V>)
    requires cols.wkt < |row1| && cols.conf < |row1|
    requires cols.wkt < |row2| && cols.conf < |row2|
    requires row1[cols.wkt] == row2[cols.wkt] && row1[cols.conf] == row2[cols.conf]
    ensures Convert(row1, cols, env) == Convert(row2, cols, env)
  {
  }

  // ---------------------------------------------------------------------------
  // The whole run: every row visited once, in order
  // ---------------------------------------------------------------------------

  /** The outcome of row `i`: its steps run against the records inserted by the rows before it. */
  function Outcomes<G, V>(rows: seq<seq<string>>, cols: ColumnIndex, env: Collaborators<G, V>)
    : (r: seq<Result<Record<G, V>, Failure>>)
    ensures |r| == |rows|
  {
    seq(|rows|, i requires 0 <= i < |rows| =>
      Attempt(rows[i], cols, env, RunOf(rows[..i], cols, env).sink))
  }

  /** The rows before the last see the same outcomes whether or not the last row follows. */
  lemma OutcomesPrefix<G, V>(rows: seq<seq<string>>, cols: ColumnIndex, env: Collaborators<G, V>)
    requires rows != []
    ensures Outcomes(rows, cols, env)[..|rows| - 1] == Outcomes(rows[..|rows| - 1], cols, env)
  {
    var p := rows[..|rows| - 1];
    forall i | 0 <= i < |p|
      ensures Outcomes(rows, cols, env)[i] == Outcomes(p, cols, env)[i]
    {
      assert p[..i] == rows[..i];
    }
  }

  /**
   * Positions of the outcomes that succeeded (`ok`) or failed (`!ok`), in
   * increasing order.
   */
  function Positions<T, E>(outs: seq<Result<T, E>>, ok: bool): (r: seq<nat>)
    ensures forall k :: 0 <= k < |r| ==> r[k] < |outs| && outs[r[k]].Ok? == ok
  {
    if outs == [] then []
    else
      var n := |outs| - 1;
      Positions(outs[..n], ok) + if outs[n].Ok? == ok then [n] else []
  }

  /** Positions of a sequence extended by one outcome: the earlier positions, then the new one if it is of the kind. */
  lemma PositionsSnoc<T, E>(outs: seq<Result<T, E>>, ok: bool)
    requires outs != []
    ensures Positions(outs, ok) ==
      Positions(outs[..|outs| - 1], ok) + if outs[|outs| - 1].Ok? == ok then [|outs| - 1] else []
  {
  }

  /** Positions are listed in increasing order, so outcomes keep the input order. */
  lemma {:induction false} PositionsIncreasing<T, E>(outs: seq<Result<T, E>>, ok: bool)
    ensures forall k, l :: 0 <= k < l < |Positions(outs, ok)| ==>
      Positions(outs, ok)[k] < Positions(outs, ok)[l]
  {
    if outs != [] {
      PositionsIncreasing(outs[..|outs| - 1], ok);
      PositionsSnoc(outs, ok);
    }
  }

  /** No position is missed: every outcome of the requested kind is listed. */
  lemma {:induction false} PositionsComplete<T, E>(outs: seq<Result<T, E>>, ok: bool, i: nat)
    requires i < |outs| && outs[i].Ok? == ok
    ensures i in Positions(outs, ok)
  {
    var n := |outs| - 1;
    PositionsSnoc(outs, ok);
    if i < n {
      PositionsComplete(outs[..n], ok, i);
    }
  }

  /** Every outcome is either a success or a failure. */
  lemma {:induction false} PositionsPartition<T, E>(outs: seq<Result<T, E>>)
    ensures |Positions(outs, true)| + |Positions(outs, false)| == |outs|
  {
    if outs != [] {
      PositionsPartition(outs[..|outs| - 1]);
    }
  }

  /**
   * The counter equals the number of rows loaded, and the cursor holds, in
   * input order, exactly the records of the rows whose four steps succeeded.
   */
  lemma {:induction false} SinkIsOrderedFilter<G, V>(rows: seq<seq<string>>, cols: ColumnIndex,
                                                     env: Collaborators<G, V>)
    ensures var t, pos := RunOf(rows, cols, env), Positions(Outcomes(rows, cols, env), true);
      t.count == |t.sink| == |pos| &&
      forall k :: 0 <= k < |pos| ==> Outcomes(rows, cols, env)[pos[k]] == Ok(t.sink[k])
  {
    if rows != [] {
      var n := |rows| - 1;
      var p := rows[..n];
      SinkIsOrderedFilter(p, cols, env);
      OutcomesPrefix(rows, cols, env);
      var outs := Outcomes(rows, cols, env);
      assert outs[n] == Attempt(rows[n], cols, env, RunOf(p, cols, env).sink);
    }
  }

  /** The `Skip` lines of a log, in order. */
  function Skips(log: seq<Event>): seq<Event>
  {
    if log == [] then []
    else Skips(log[..|log| - 1]) + if log[|log| - 1].Skip? then [log[|log| - 1]] else []
  }

  /** The `Progress` lines of a log, in order. */
  function Progresses(log: seq<Event>): seq<Event>
  {
    if log == [] then []
    else Progresses(log[..|log| - 1]) + if log[|log| - 1].Progress? then [log[|log| - 1]] else []
  }

  /** Appending one line to a log extends its skip or progress lines by that line alone. */
  lemma LogAppend(log: seq<Event>, e: Event)
    ensures Skips(log + [e]) == Skips(log) + if e.Skip? then [e] else []
    ensures Progresses(log + [e]) == Progresses(log) + if e.Progress? then [e] else []
  {
    assert (log + [e])[..|log|] == log;
  }

  /**
   * The skip lines a sequence of outcomes calls for: one per failure, reporting
   * the successes before it plus one.
   */
  function SkipLines<T>(outs: seq<Result<T, Failure>>): seq<Event>
  {
    if outs == [] then []
    else
      var n := |outs| - 1;
      SkipLines(outs[..n]) +
        if outs[n].Err? then [Skip(|Positions(outs[..n], true)| + 1, outs[n].error)] else []
  }

  /** The success counter is the number of rows whose outcome is a success. */
  lemma {:induction false} CountIsSuccesses<G, V>(rows: seq<seq<string>>, cols: ColumnIndex, env: Collaborators<G, V>)
    ensures RunOf(rows, cols, env).count == |Positions(Outcomes(rows, cols, env), true)|
  {
    SinkIsOrderedFilter(rows, cols, env);
  }

  /** Skip lines of a sequence extended by one outcome: one more line exactly when that outcome failed. */
  lemma SkipLinesSnoc<T>(outs: seq<Result<T, Failure>>)
    requires outs != []
    ensures outs[|outs| - 1].Ok? ==> SkipLines(outs) == SkipLines(outs[..|outs| - 1])
    ensures outs[|outs| - 1].Err? ==>
      SkipLines(outs) ==
        SkipLines(outs[..|outs| - 1]) + [Skip(|Positions(outs[..|outs| - 1], true)| + 1, outs[|outs| - 1].error)]
  {
  }

  /** The log's skip lines are those the row outcomes call for. */
  lemma {:induction false} SkipsFollowOutcomes<G, V>(rows: seq<seq<string>>, cols: ColumnIndex,
                                                     env: Collaborators<G, V>)
    ensures Skips(RunOf(rows, cols, env).log) == SkipLines(Outcomes(rows, cols, env))
  {
    if rows != [] {
      var n := |rows| - 1;
      var p := rows[..n];
      var outs := Outcomes(rows, cols, env);
      var s, t := RunOf(p, cols, env), RunOf(rows, cols, env);
      SkipsFollowOutcomes(p, cols, env);
      OutcomesPrefix(rows, cols, env);
      CountIsSuccesses(p, cols, env);
      SkipLinesSnoc(outs);
      LastRowSkips(rows, cols, env);
    }
  }

  /** The last row adds a skip line exactly when its outcome is a failure. */
  lemma LastRowSkips<G, V>(rows: seq<seq<string>>, cols: ColumnIndex, env: Collaborators<G, V>)
    requires rows != []
    ensures Outcomes(rows, cols, env)[|rows| - 1].Ok? ==>
      Skips(RunOf(rows, cols, env).log) == Skips(RunOf(rows[..|rows| - 1], cols, env).log)
    ensures Outcomes(rows, cols, env)[|rows| - 1].Err? ==>
      Skips(RunOf(rows, cols, env).log) ==
        Skips(RunOf(rows[..|rows| - 1], cols, env).log) +
        [Skip(RunOf(rows[..|rows| - 1], cols, env).count + 1, Outcomes(rows, cols, env)[|rows| - 1].error)]
  {
    var n := |rows| - 1;
    var s := RunOf(rows[..n], cols, env);
    assert Outcomes(rows, cols, env)[n] == Attempt(rows[n], cols, env, s.sink);
    StepSkips(s, rows[n], cols, env);
  }

  /** One row adds a skip line to the log exactly when it fails. */
  lemma StepSkips<G, V>(s: State<G, V>, row: seq<string>, cols: ColumnIndex, env: Collaborators<G, V>)
    ensures Attempt(row, cols, env, s.sink).Ok? ==>
      Skips(Step(s, row, cols, env).log) == Skips(s.log)
    ensures Attempt(row, cols, env, s.sink).Err? ==>
      Skips(Step(s, row, cols, env).log) ==
        Skips(s.log) + [Skip(s.count + 1, Attempt(row, cols, env, s.sink).error)]
  {
    var t := Step(s, row, cols, env);
    if Attempt(row, cols, env, s.sink).Ok? {
      LogAppend(s.log, Progress(t.count));
    } else {
      LogAppend(s.log, Skip(s.count + 1, Attempt(row, cols, env, s.sink).error));
    }
  }

  /** The k-th skip line belongs to the k-th failed outcome. */
  lemma {:induction false} SkipLinesAt<T>(outs: seq<Result<T, Failure>>)
    ensures var bad := Positions(outs, false);
      |SkipLines(outs)| == |bad| &&
      forall k :: 0 <= k < |bad| ==>
        SkipLines(outs)[k] == Skip(|Positions(outs[..bad[k]], true)| + 1, outs[bad[k]].error)
  {
    if outs != [] {
      var n := |outs| - 1;
      var p := outs[..n];
      SkipLinesAt(p);
      SkipLinesSnoc(outs);
      PositionsSnoc(outs, false);
      var bad, badP := Positions(outs, false), Positions(p, false);
      forall k | 0 <= k < |badP|
        ensures outs[..bad[k]] == p[..badP[k]] && outs[bad[k]] == p[badP[k]]
      {
      }
    }
  }

  /**
   * One skip line per failed row, in input order; the number it reports is the
   * count of rows loaded before that row plus one, and the cause is the step
   * that failed.
   */
  lemma {:induction false} SkipDiagnostics<G, V>(rows: seq<seq<string>>, cols: ColumnIndex, env: Collaborators<G, V>)
    ensures var outs := Outcomes(rows, cols, env);
      var bad := Positions(outs, false);
      var skips := Skips(RunOf(rows, cols, env).log);
      |skips| == |bad| &&
      forall k :: 0 <= k < |bad| ==>
        skips[k] == Skip(|Positions(outs[..bad[k]], true)| + 1, outs[bad[k]].error)
  {
    SkipsFollowOutcomes(rows, cols, env);
    SkipLinesAt(Outcomes(rows, cols, env));
  }

  /** Every row ends either in the cursor or in a skip line: no failure in the four per-row steps ends the run. */
  lemma {:induction false} EveryRowAccountedFor<G, V>(rows: seq<seq<string>>, cols: ColumnIndex, env: Collaborators<G, V>)
    ensures RunOf(rows, cols, env).count + |Skips(RunOf(rows, cols, env).log)| == |rows|
  {
    SinkIsOrderedFilter(rows, cols, env);
    SkipDiagnostics(rows, cols, env);
    PositionsPartition(Outcomes(rows, cols, env));
  }

  // ---------------------------------------------------------------------------
  // Progress lines
  // ---------------------------------------------------------------------------

  /** The progress lines a counter that has counted up to `c` calls for. */
  function ProgressLines(c: nat): seq<Event>
  {
    if c == 0 then []
    else ProgressLines(c - 1) + if c % ProgressEvery == 0 then [Progress(c)] else []
  }

  /** One row adds at most one to the counter, and a progress line only when it does. */
  lemma StepProgress<G, V>(s: State<G, V>, row: seq<string>, cols: ColumnIndex, env: Collaborators<G, V>)
    ensures Step(s, row, cols, env).count == s.count ==>
      Progresses(Step(s, row, cols, env).log) == Progresses(s.log)
    ensures Step(s, row, cols, env).count != s.count ==>
      Step(s, row, cols, env).count == s.count + 1 &&
      Progresses(Step(s, row, cols, env).log) ==
        Progresses(s.log) + if (s.count + 1) % ProgressEvery == 0 then [Progress(s.count + 1)] else []
  {
    match Attempt(row, cols, env, s.sink)
    case Ok(rec) =>
      LogAppend(s.log, Progress(s.count + 1));
    case Err(f) =>
      LogAppend(s.log, Skip(s.count + 1, f));
  }

  /** The log's progress lines are those the final counter calls for. */
  lemma {:induction false} ProgressFollowsCounter<G, V>(rows: seq<seq<string>>, cols: ColumnIndex,
                                                        env: Collaborators<G, V>)
    ensures Progresses(RunOf(rows, cols, env).log) == ProgressLines(RunOf(rows, cols, env).count)
  {
    if rows != [] {
      var n := |rows| - 1;
      var s := RunOf(rows[..n], cols, env);
      ProgressFollowsCounter(rows[..n], cols, env);
      StepProgress(s, rows[n], cols, env);
    }
  }

  /** How `c / 10000` moves when the counter goes from `c - 1` to `c`. */
  lemma CounterStep(c: nat)
    requires c > 0
    ensures c % ProgressEvery == 0 ==>
      c / ProgressEvery == (c - 1) / ProgressEvery + 1 && (c / ProgressEvery) * ProgressEvery == c
    ensures c % ProgressEvery != 0 ==> c / ProgressEvery == (c - 1) / ProgressEvery
  {
    assert ProgressEvery == 10000;
  }

  /** The j-th progress line (from 0) reports (j + 1) * 10000; there are floor(c / 10000) of them. */
  lemma {:induction false} ProgressLinesAt(c: nat)
    ensures |ProgressLines(c)| == c / ProgressEvery
    ensures forall j :: 0 <= j < |ProgressLines(c)| ==>
      ProgressLines(c)[j] == Progress((j + 1) * ProgressEvery)
  {
    if c > 0 {
      ProgressLinesAt(c - 1);
      CounterStep(c);
    }
  }

  /**
   * Progress lines are printed at 10000, 20000, ... up to the final count, in
   * that order and once each: floor(count / 10000) of them.
   */
  lemma {:induction false} ProgressCadence<G, V>(rows: seq<seq<string>>, cols: ColumnIndex, env: Collaborators<G, V>)
    ensures var t := RunOf(rows, cols, env);
      |Progresses(t.log)| == t.count / ProgressEvery &&
      forall j :: 0 <= j < |Progresses(t.log)| ==> Progresses(t.log)[j] == Progress((j + 1) * ProgressEvery)
  {
    ProgressFollowsCounter(rows, cols, env);
    ProgressLinesAt(RunOf(rows, cols, env).count);
  }

  // ---------------------------------------------------------------------------
  // Scenarios
  // ---------------------------------------------------------------------------

  /** Under a cursor that accepts everything, a row's outcome is its conversion. */
  lemma {:induction false} OutcomesUnderAcceptingCursor<G, V>(rows: seq<seq<string>>, cols: ColumnIndex,
                                           env: Collaborators<G, V>)
    requires forall stored, rec :: env.accepts(stored, rec)
    ensures forall i :: 0 <= i < |rows| ==>
      Outcomes(rows, cols, env)[i] == Convert(rows[i], cols, env)
  {
    forall i | 0 <= i < |rows|
      ensures Outcomes(rows, cols, env)[i] == Convert(rows[i], cols, env)
    {
      var stored := RunOf(rows[..i], cols, env).sink;
      match Convert(rows[i], cols, env)
      case Ok(rec) => assert env.accepts(stored, rec);
      case Err(_) =>
    }
  }

  /** When no outcome failed, there is no failure position and every position succeeded. */
  lemma {:induction false} NoFailures<T, E>(outs: seq<Result<T, E>>)
    requires forall i :: 0 <= i < |outs| ==> outs[i].Ok?
    ensures Positions(outs, false) == []
    ensures |Positions(outs, true)| == |outs|
  {
    if outs != [] {
      NoFailures(outs[..|outs| - 1]);
    }
  }

  /** When only the last outcome failed, it is the one failure position. */
  lemma FailureAtEnd<T, E>(outs: seq<Result<T, E>>)
    requires outs != [] && outs[|outs| - 1].Err?
    requires forall i :: 0 <= i < |outs| - 1 ==> outs[i].Ok?
    ensures Positions(outs, false) == [|outs| - 1]
    ensures |Positions(outs, true)| == |outs| - 1
  {
    var n := |outs| - 1;
    NoFailures(outs[..n]);
    PositionsSnoc(outs, false);
    PositionsSnoc(outs, true);
  }

  /** When only outcome `b` failed, `b` is the one failure position. */
  lemma {:induction false} SingleFailure<T, E>(outs: seq<Result<T, E>>, b: nat)
    requires b < |outs|
    requires forall i :: 0 <= i < |outs| ==> (outs[i].Ok? <==> i != b)
    ensures Positions(outs, false) == [b]
    ensures |Positions(outs, true)| == |outs| - 1
  {
    var n := |outs| - 1;
    if n == b {
      FailureAtEnd(outs);
    } else {
      var p := outs[..n];
      SingleFailure(p, b);
      PositionsSnoc(outs, false);
      PositionsSnoc(outs, true);
    }
  }

  /** The skip lines and success count called for when only outcome `b` failed. */
  lemma {:induction false} OneFailureSkipLines<T>(outs: seq<Result<T, Failure>>, b: nat)
    requires b < |outs|
    requires forall i :: 0 <= i < |outs| ==> (outs[i].Ok? <==> i != b)
    ensures |Positions(outs, true)| == |outs| - 1
    ensures SkipLines(outs) == [Skip(b + 1, outs[b].error)]
  {
    SingleFailure(outs, b);
    SkipLinesAt(outs);
    assert forall i :: 0 <= i < b ==> outs[..b][i].Ok?;
    NoFailures(outs[..b]);
  }

  /** The skip lines and success count called for when no outcome failed. */
  lemma {:induction false} NoFailureSkipLines<T>(outs: seq<Result<T, Failure>>)
    requires forall i :: 0 <= i < |outs| ==> outs[i].Ok?
    ensures |Positions(outs, true)| == |outs|
    ensures SkipLines(outs) == []
  {
    NoFailures(outs);
    SkipLinesAt(outs);
  }

  /** Under an accepting cursor, the outcomes of a run with one bad row `b`. */
  lemma {:induction false} OneBadRowOutcomes<G, V>(rows: seq<seq<string>>, cols: ColumnIndex, env: Collaborators<G, V>,
                                b: nat)
    requires b < |rows|
    requires forall stored, rec :: env.accepts(stored, rec)
    requires forall i :: 0 <= i < |rows| && i != b ==> Convert(rows[i], cols, env).Ok?
    requires Convert(rows[b], cols, env).Err?
    ensures forall i :: 0 <= i < |rows| ==> (Outcomes(rows, cols, env)[i].Ok? <==> i != b)
    ensures Outcomes(rows, cols, env)[b] == Convert(rows[b], cols, env)
  {
    OutcomesUnderAcceptingCursor(rows, cols, env);
  }

  /**
   * With a cursor that accepts every record and exactly one row that does not
   * convert, the run loads all the others and prints a single skip line; here
   * the reported number happens to be the row's 1-based position.
   */
  lemma {:induction false} OneBadRowIsolated<G, V>(rows: seq<seq<string>>, cols: ColumnIndex, env: Collaborators<G, V>,
                                b: nat)
    requires b < |rows|
    requires forall stored, rec :: env.accepts(stored, rec)
    requires forall i :: 0 <= i < |rows| && i != b ==> Convert(rows[i], cols, env).Ok?
    requires Convert(rows[b], cols, env).Err?
    ensures RunOf(rows, cols, env).count == |rows| - 1
    ensures Skips(RunOf(rows, cols, env).log) == [Skip(b + 1, Convert(rows[b], cols, env).error)]
  {
    OneBadRowOutcomes(rows, cols, env, b);
    OneFailureSkipLines(Outcomes(rows, cols, env), b);
    CountIsSuccesses(rows, cols, env);
    SkipsFollowOutcomes(rows, cols, env);
  }

  /**
   * With a cursor that accepts every record and rows that all convert, every
   * row is loaded and no skip line is printed.
   */
  lemma {:induction false} AllRowsLoaded<G, V>(rows: seq<seq<string>>, cols: ColumnIndex, env: Collaborators<G, V>)
    requires forall stored, rec :: env.accepts(stored, rec)
    requires forall i :: 0 <= i < |rows| ==> Convert(rows[i], cols, env).Ok?
    ensures RunOf(rows, cols, env).count == |rows|
    ensures Skips(RunOf(rows, cols, env).log) == []
  {
    OutcomesUnderAcceptingCursor(rows, cols, env);
    NoFailureSkipLines(Outcomes(rows, cols, env));
    CountIsSuccesses(rows, cols, env);
    SkipsFollowOutcomes(rows, cols, env);
  }

  /** 25000 good rows: progress lines at 10000 and 20000, and a final count of 25000. */
  lemma {:induction false} TwentyFiveThousandRows<G, V>(rows: seq<seq<string>>, cols: ColumnIndex, env: Collaborators<G, V>)
    requires |rows| == 25000
    requires forall stored, rec :: env.accepts(stored, rec)
    requires forall i :: 0 <= i < |rows| ==> Convert(rows[i], cols, env).Ok?
    ensures RunOf(rows, cols, env).count == 25000
    ensures Progresses(RunOf(rows, cols, env).log) == [Progress(10000), Progress(20000)]
  {
    AllRowsLoaded(rows, cols, env);
    ProgressCadence(rows, cols, env);
  }

  /**
   * The skip line does not give the row's position in the file: after a first
   * failed row, a second failed row is reported as row 1 again.
   */
  lemma SkipNumberIsNotRowPosition<G, V>(env: Collaborators<G, V>)
    ensures RunOf([[], []], ColumnIndex(0, 1), env).log ==
      [Skip(1, GeometryFieldMissing), Skip(1, GeometryFieldMissing)]
  {
    var rows: seq<seq<string>> := [[], []];
    assert rows[..1] == [[]];
    assert rows[..1][..0] == [];
    assert RunOf(rows[..1], ColumnIndex(0, 1), env) == State(0, [], [Skip(1, GeometryFieldMissing)]);
  }
}

=== FILE: load_loop.dfy ===
/**
 * The streaming load loop: every data row is converted to a (polygon,
 * confidence) record and appended to the output cursor; a row that fails at
 * any step is skipped with a diagnostic and the loop moves on.
 *
 * The geometry engine and the float parser are not modelled; they come in as
 * a `Collaborators` value: the confidence parser, the WKT parser (with its
 * fixed spatial reference), and the cursor's verdict on an insert.
 */
module LoadLoop {
  import opened Wrappers
  import opened Columns

  /** A progress line is printed every this many successful inserts. */
  const ProgressEvery: nat := 10000

  /** The step at which a row was given up, in the order the steps run. */
  datatype Failure =
    | GeometryFieldMissing   // the row is too short for the WKT position
    | ConfidenceFieldMissing // the row is too short for the confidence position
    | ConfidenceNotNumeric   // the confidence text does not parse as a float
    | WktInvalid             // the WKT text does not give a geometry
    | InsertRejected         // the cursor refused the record

  /** One output record: the geometry and its confidence value. */
  datatype Record<G, V> = Record(shape: G, confidence: V)

  /** A console line the loop prints. */
  datatype Event =
    | Progress(count: nat)             // "Processed {count} features..."
    | Skip(reported: nat, cause: Failure) // "Skipping row {reported} due to error: {cause}"

  /**
   * The code the loop calls but that is not part of this model:
   * `float`, the WKT-to-geometry conversion, and whether the cursor accepts a
   * record given the records it already holds.
   */
  datatype Collaborators<!G, !V> = Collaborators(
    parseFloat: string -> Option<V>,
    fromWkt: string -> Option<G>,
    accepts: (seq<Record<G, V>>, Record<G, V>) -> bool)

  /** The loop's state: the success counter, the records inserted, the lines printed. */
  datatype State<G, V> = State(count: nat, sink: seq<Record<G, V>>, log: seq<Event>)

  /**
   * The fallible steps before the insert: field fetches, float parse, WKT parse.
   * A record comes out only when both fields exist and both parses succeed.
   */
  function Convert<G, V>(row: seq<string>, cols: ColumnIndex, env: Collaborators<G, V>)
    : (r: Result<Record<G, V>, Failure>)
    ensures r.Ok? <==>
      cols.wkt < |row| && cols.conf < |row| &&
      env.parseFloat(row[cols.conf]).Some? && env.fromWkt(row[cols.wkt]).Some?
    ensures r.Err? ==> r.error != InsertRejected
  {
    if |row| <= cols.wkt then Err(GeometryFieldMissing)
    else if |row| <= cols.conf then Err(ConfidenceFieldMissing)
    else
      match env.parseFloat(row[cols.conf])
      case None => Err(ConfidenceNotNumeric)
      case Some(v) =>
        match env.fromWkt(row[cols.wkt])
        case None => Err(WktInvalid)
        case Some(g) => Ok(Record(g, v))
  }

  /** Position of a step in the order the loop attempts it. */
  function Rank(f: Failure): nat
  {
    match f
    case GeometryFieldMissing => 0
    case ConfidenceFieldMissing => 1
    case ConfidenceNotNumeric => 2
    case WktInvalid => 3
    case InsertRejected => 4
  }

  /** Step `f`, taken on its own, goes wrong for this row. */
  predicate Fails<G, V>(f: Failure, row: seq<string>, cols: ColumnIndex,
                        env: Collaborators<G, V>, stored: seq<Record<G, V>>)
  {
    match f
    case GeometryFieldMissing => |row| <= cols.wkt
    case ConfidenceFieldMissing => |row| <= cols.conf
    case ConfidenceNotNumeric =>
      cols.conf < |row| && env.parseFloat(row[cols.conf]).None?
    case WktInvalid =>
      cols.wkt < |row| && env.fromWkt(row[cols.wkt]).None?
    case InsertRejected =>
      cols.wkt < |row| && cols.conf < |row| &&
      env.parseFloat(row[cols.conf]).Some? && env.fromWkt(row[cols.wkt]).Some? &&
      !env.accepts(stored, Record(env.fromWkt(row[cols.wkt]).value, env.parseFloat(row[cols.conf]).value))
  }

  /**
   * All four steps of one row against the records already stored, in the
   * order the loop runs them: the row is skipped at the first step that fails.
   */
  function Attempt<G, V>(row: seq<string>, cols: ColumnIndex, env: Collaborators<G, V>,
                         stored: seq<Record<G, V>>): (r: Result<Record<G, V>, Failure>)
    ensures r.Ok? ==>
      cols.wkt < |row| && cols.conf < |row| &&
      env.fromWkt(row[cols.wkt]).Some? && env.parseFloat(row[cols.conf]).Some? &&
      r.value == Record(env.fromWkt(row[cols.wkt]).value, env.parseFloat(row[cols.conf]).value)
    ensures r.Err? ==>
      Fails(r.error, row, cols, env, stored) &&
      forall g :: Rank(g) < Rank(r.error) ==> !Fails(g, row, cols, env, stored)
    ensures r.Ok? <==> forall f :: !Fails(f, row, cols, env, stored)
  {
    match Convert(row, cols, env)
    case Err(f) => Err(f)
    case Ok(rec) => if env.accepts(stored, rec) then Ok(rec) else Err(InsertRejected)
  }

  /**
   * The effect of one row on the loop's state: the counter grows by one
   * exactly when a record is inserted, and a row that inserts nothing prints
   * exactly one line.
   */
  function Step<G, V>(s: State<G, V>, row: seq<string>, cols: ColumnIndex,
                      env: Collaborators<G, V>): (r: State<G, V>)
    ensures r.count == s.count || r.count == s.count + 1
    ensures |r.sink| - |s.sink| == r.count - s.count
    ensures r.count == s.count ==> |r.log| == |s.log| + 1
  {
    match Attempt(row, cols, env, s.sink)
    case Ok(rec) =>
      var n := s.count + 1;
      State(n, s.sink + [rec], if n % ProgressEvery == 0 then s.log + [Progress(n)] else s.log)
    case Err(f) =>
      State(s.count, s.sink, s.log + [Skip(s.count + 1, f)])
  }

  /**
   * The state after the loop has consumed `rows`, starting from a zero counter:
   * the cursor holds one record per success, and no more successes or lines
   * than rows.
   */
  function RunOf<G, V>(rows: seq<seq<string>>, cols: ColumnIndex, env: Collaborators<G, V>)
    : (r: State<G, V>)
    ensures |r.sink| == r.count <= |rows|
    ensures |r.log| <= |rows|
  {
    if rows == [] then State(0, [], [])
    else Step(RunOf(rows[..|rows| - 1], cols, env), rows[|rows| - 1], cols, env)
  }

  /**
   * The row loop. Each iteration runs the steps in source order and leaves the
   * per-row block at the first failure, as the exception does.
   */
  method LoadRows<G, V>(rows: seq<seq<string>>, cols: ColumnIndex, env: Collaborators<G, V>)
    returns (rowCount: nat, sink: seq<Record<G, V>>, log: seq<Event>)
    ensures State(rowCount, sink, log) == RunOf(rows, cols, env)
  {
    rowCount, sink, log := 0, [], [];
    for i := 0 to |rows|
      invariant State(rowCount, sink, log) == RunOf(rows[..i], cols, env)
    {
      assert rows[..i + 1][..i] == rows[..i];
      var row := rows[i];
      var failure: Option<Failure> := None;
      label attempt: {
        if |row| <= cols.wkt {
          failure := Some(GeometryFieldMissing);
          break attempt;
        }
        var wktString := row[cols.wkt];
        if |row| <= cols.conf {
          failure := Some(ConfidenceFieldMissing);
          break attempt;
        }
        var confidence := env.parseFloat(row[cols.conf]);
        if confidence.None? {
          failure := Some(ConfidenceNotNumeric);
          break attempt;
        }
        var polygon := env.fromWkt(wktString);
        if polygon.None? {
          failure := Some(WktInvalid);
          break attempt;
        }
        var rec := Record(polygon.value, confidence.value);
        if !env.accepts(sink, rec) {
          failure := Some(InsertRejected);
          break attempt;
        }
        sink := sink + [rec];
        rowCount := rowCount + 1;
        if rowCount % ProgressEvery == 0 {
          log := log + [Progress(rowCount)];
        }
      }
      if failure.Some? {
        log := log + [Skip(rowCount + 1, failure.value)];
      }
    }
    assert rows[..|rows|] == rows;
  }
}

=== FILE: script.dfy ===
/**
 * The part of the script that runs once the cursor and the file are open:
 * read the header, resolve the two columns, then run the row loop over the
 * remaining lines.
 */
module Script {
  import opened Wrappers
  import opened Columns
  import opened LoadLoop

  /** What a run leaves behind: rows handed to the loop, successes, records, console lines. */
  datatype Summary<G, V> = Summary(rowsRead: nat, count: nat, sink: seq<Record<G, V>>, log: seq<Event>)

  /**
   * `lines` is the CSV file already split into fields, header first. An empty
   * file or a missing column aborts before any data row is read; otherwise
   * every data row goes through the loop.
   */
  method ConvertCsv<G, V>(lines: seq<seq<string>>, wktName: string, env: Collaborators<G, V>)
    returns (fatal: Option<Fatal>, summary: Summary<G, V>)
    ensures fatal == Some(EmptyInput) <==> lines == []
    ensures lines != [] ==>
      (fatal == None <==> wktName in lines[0] && ConfidenceColumn in lines[0])
    ensures lines != [] && Resolve(lines[0], wktName).Err? ==>
      fatal == Some(Resolve(lines[0], wktName).error)
    ensures fatal.Some? ==> summary == Summary(0, 0, [], [])
    ensures fatal.None? ==>
      lines != [] && Resolve(lines[0], wktName).Ok? &&
      summary.rowsRead == |lines| - 1 &&
      State(summary.count, summary.sink, summary.log) ==
        RunOf(lines[1..], Resolve(lines[0], wktName).value, env)
  {
    summary := Summary(0, 0, [], []);
    if lines == [] {
      fatal := Some(EmptyInput);
      return;
    }
    match Resolve(lines[0], wktName)
    case Err(e) =>
      fatal := Some(e);
    case Ok(cols) =>
      var rows := lines[1..];
      var count, sink, log := LoadRows(rows, cols, env);
      fatal := None;
      summary := Summary(|rows|, count, sink, log);
  }
}

=== FILE: wrappers.dfy ===
/** Failure-carrying values shared by the other modules. */
module Wrappers {

  /** A value that may be absent: a lookup or parse that may fail. */
  datatype Option<+T> = None | Some(value: T)

  /** The outcome of a step that either yields a value or fails with an error. */
  datatype Result<+T, +E> = Ok(value: T) | Err(error: E)
}
